=== FILE: README.md ===
# Bearer-token authentication of the cats catalog service, in Dafny

This project models the authentication path of a small Go web service (Fiber, golang-jwt v4, Postgres). It covers:

- **Token codec** (`server/pkg/authentification.go`). `GenerateAccessToken` builds the `tokenClaims` record and signs it with HS256. The record holds the user id, `IssuedAr` = now and `ExpiresAt` = now + hours·3600. `ParseToken` decodes a token string, refuses non-HMAC signing methods, checks the signature against the shared key and compares `ExpiresAt` with the clock. (module `Jwt`, file `jwt.dfy`)
- **Auth gate** `WithJWTAuth`. It reads the `Authorization` header and splits it on single spaces with Go's `strings.Split` semantics. It requires exactly two pieces and ignores the scheme word. Then it either answers with a status and an error text, or passes the user id on to the next handler. (module `Gate`, file `gate.dfy`)
- **User handlers** (`server/internal/handler/user.go`). `CheckAuth` repeats the gate inline, checks that the user exists and echoes the token back. `SignUp` guards on email uniqueness, splits the full name into surname, name and third name, inserts the row and issues a token. `Login` checks the password against the stored hash and issues a token for the stored row's id. (module `Handlers`, file `handlers.dfy`)
- **Users table** as the handlers see it: SERIAL ids, UNIQUE emails, lookup by email returning a zero user when nothing matches, and insert. (module `Users`, file `users.dfy`)
- **String helpers** (module `Text`, file `text.dfy`): Go's `strings.Split` on one character and its inverse `Join`, a reversible escape, and canonical decimal integers.

Everything is a pure function over immutable datatypes. Several things are explicit parameters:

- the wall clock: `now`, in Unix seconds;
- the signing key and the token lifetime in hours;
- the outcome of password hashing: `Hashing`;
- the password check: a function `matches(plain, hash)`.

The token wire format is a stand-in with the same shape as RFC 7515 compact serialization: three `.`-separated segments (algorithm name, payload, signature). It does not use base64url or JSON. The payload holds the user id, `IssuedAr` and `ExpiresAt`, separated by `,`. HMAC-SHA256 (section 3.2 of RFC 7518) is replaced by an ideal keyed seal (`Jwt.Seal`). Verification recomputes the seal over the first two segments and compares, as HMAC verification does. For the seal, a different key or a different signing input always gives a different seal (`Jwt.SealSeparatesKeys`, `Jwt.SealSeparatesInputs`). For real HMAC-SHA256 the second fact is the assumed collision resistance. The first holds only for keys that still differ after HMAC's key normalisation (see "## Left out").

In these points the source behaves unlike a textbook JWT verifier, and the model follows the source:

- **Expiry is strict.** A token fails only when `now > ExpiresAt`, so at `now == ExpiresAt` it is still accepted.
- **The check uses the custom claim.** It reads the custom `ExpiresAt` claim, not the registered `exp` claim of section 4.1.4 of RFC 7519.
- **Negative ids pass.** A negative user id in a validly signed token is accepted.
- **A missing or non-numeric `ExpiresAt` panics.** The type assertion at `authentification.go:91` panics; it is not reported as a malformed token. The model makes this an explicit `Panicked` verdict. The gate maps it to `Crash` and the handlers to `Panic`.
- **`CheckAuth` mints no token.** Its doc comment promises a new token, but it returns the incoming one.
- **`CheckAuth` is not routed.** Its annotation documents it as `GET /login`, but `Router` registers no route for it (`POST /login` is `Login`). The model describes the handler function itself.

## Model

| member | source | states |
|---|---|---|
| Text.Split | server/pkg/authentification.go:25 | Go `strings.Split` on one character: exactly one more piece than there are separators in the text |
| Text.SplitPiecesFree | server/pkg/authentification.go:25 | no piece of a split contains the separator |
| Text.JoinSplit | server/pkg/authentification.go:25 | joining the pieces of a split with the separator gives the input back, so nothing is lost or normalised |
| Text.SplitNone | server/pkg/authentification.go:25-27 | a text without the separator, the empty text included, is a single piece |
| Text.SplitJoin | server/pkg/authentification.go:25 | splitting undoes joining separator-free pieces: the split is exactly the list of pieces |
| Text.SplitInTwo | server/pkg/authentification.go:25-27 | a header splits into exactly two pieces iff it has a space and none after the first; the pieces are then the text before and after that space |
| Text.SplitLeadingWords | server/internal/handler/user.go:58-72 | three space-free words followed by nothing or a space are the first three pieces, whatever follows |
| Jwt.AlgOfName | server/pkg/authentification.go:71-72 | a signing method found by `alg` name carries that name |
| Jwt.Sign | server/pkg/authentification.go:49-51 | a token signed under a key carries its own algorithm and claims, verifies under that key and under no other key |
| Jwt.SealSeparatesKeys | server/pkg/authentification.go:75 | the seal of one text under two different keys differs (cross-key rejection) |
| Jwt.SealSeparatesInputs | server/pkg/authentification.go:51 | the seal of two different texts under one key differs (tamper detection) |
| Jwt.GenerateAccessToken | server/pkg/authentification.go:41-52 | the issued string decodes to an HS256 token with user id `id`, `IssuedAr` = now, `ExpiresAt` = now + hours·3600, signed under the key, and contains no space |
| Jwt.ParseToken | server/pkg/authentification.go:70-96 | accepted iff the string decodes to an HMAC token signed under the key with numeric `ExpiresAt` ≥ now, and then yields its user id. Expired iff authentic and now > `ExpiresAt`. Panics iff authentic with a missing or non-numeric `ExpiresAt`. A non-HMAC method is refused as such. An authentic-format string whose HMAC signature does not verify is refused as a bad signature. A string without exactly three segments is refused for its segment count. Any other undecodable string is refused as malformed or as an unknown method |
| Jwt.ParseSigned | server/pkg/authentification.go:70-96 | any HMAC-signed token with numeric `ExpiresAt` is accepted with its own user id up to and including that second, and expired after it |
| Jwt.AcceptedWasSigned | server/pkg/authentification.go:71-84 | every accepted string is exactly the compact form, in the stand-in format, of a token signed with the key by an HMAC method, for the id it yields |
| Jwt.GenerateThenParse | server/pkg/authentification.go:41-96 | round trip: a token from `GenerateAccessToken(id, hours, key)` yields `id` under the same key while now ≤ `ExpiresAt`, and is expired after |
| Jwt.OtherKeyRejected | server/pkg/authentification.go:71-80 | a token issued under one key is refused with a bad signature under any other key |
| Jwt.AlteredSignatureRejected | server/pkg/authentification.go:71-80 | replacing the signature segment of a signed HMAC token with any other text without `.` is refused with a bad signature (a `.` changes the segment count instead) |
| Jwt.AlteredClaimsRejected | server/pkg/authentification.go:71-80 | keeping a signature but changing the algorithm to another HMAC method, or the claims, is refused with a bad signature (a non-HMAC method is refused as such) |
| Jwt.NonHmacRejected | server/pkg/authentification.go:72-74 | a token naming a non-HMAC method (`none` included) is refused whatever its signature, key or time: the key is never consulted |
| Jwt.OneHourBoundary | server/pkg/authentification.go:91-93 | with a one-hour lifetime the token is accepted 59 minutes and exactly 3600 s after issue, and expired at 3601 s and 61 minutes |
| Gate.WithJwtAuth | server/pkg/authentification.go:18-38 | empty header iff 400 "Missing auth token". Non-empty header without exactly one space iff 401 "Invalid auth header". Next iff exactly one space and the text after it is a valid token, storing that token's user id. A panic iff the token check panics. A refused token is always answered 401 with the token error's text |
| Gate.SchemeIgnored | server/pkg/authentification.go:25-31 | two headers that differ only in the scheme word get the same outcome |
| Gate.IssuedTokenPasses | server/pkg/authentification.go:31-37 | "scheme token" with a freshly issued token passes with its id until expiry, and is refused with 401 "Token has expired" after |
| Gate.DoubleSpaceRefused | server/pkg/authentification.go:25-29 | a header with two spaces in a row is refused with 401 "Invalid auth header"; nothing is normalised |
| Gate.OneWordRefused | server/pkg/authentification.go:25-29 | a non-empty header without a space is refused with 401 "Invalid auth header" |
| Gate.EmptyTokenRefused | server/pkg/authentification.go:25-33 | "scheme " splits into two pieces with an empty token, which is refused with 401 and golang-jwt's text "token contains an invalid number of segments" |
| Users.FindByEmail | server/internal/repository/postgres/user.go:35-45 | finds a row with the email, and finds none iff no row has it |
| Users.UserGetByEmail | server/internal/repository/postgres/user.go:35-45 | the row with the email when one exists, otherwise the zero user (id 0, empty password) |
| Users.EmailNamesOneRow | server/internal/repository/postgres/queries.go:10 | under the UNIQUE email constraint two rows with the same email are the same row |
| Users.Insert | server/internal/repository/postgres/user.go:78-92 | appends the row with the next SERIAL id and returns that id, which is at least 1 and new. A consistent table with a fresh email stays consistent |
| Handlers.CheckAuth | server/internal/handler/user.go:244-295 | gives the gate's refusals with the same status and text, and panics where the gate panics. Where the gate passes: 200 with the incoming token unchanged and its id if the user exists, otherwise 500 "user not exists" |
| Handlers.CheckAuthEchoesToken | server/internal/handler/user.go:288-294 | a live issued token of an existing user comes back unchanged with its id; no new token is minted |
| Handlers.CheckAuthUnknownUser | server/internal/handler/user.go:272-286 | a live token whose user is not in the table gets 500 "user not exists" |
| Handlers.SignUp | server/internal/handler/user.go:26-112 | taken email: 400 "user already exists" and the table unchanged. Failed hash: 500 and unchanged. Fewer than three words: 500 and unchanged. The table changes iff the answer is 200, and consistency is kept. On 200 exactly one row is appended, holding the email and the hash under a new id, and the body carries that id and a token that the token check accepts for that id throughout its lifetime and refuses as expired after it |
| Handlers.SignUpAsWritten | server/internal/handler/user.go:58-64 | the handler as written panics iff the email is free, hashing succeeded and the full name has fewer than three words; otherwise it agrees with the corrected handler |
| Handlers.TwoWordNamePanics | server/internal/handler/user.go:58-64 | a two-word full name with a fresh email panics as written; corrected, it is answered 500 with the table unchanged |
| Handlers.SignUpMapsNames | server/internal/handler/user.go:58-72 | the first three words become surname, name and third name in that order; further words are dropped |
| Handlers.Login | server/internal/handler/user.go:125-179 | password mismatch against the row found by email: 400 "wrong data". Match: 200 with the stored row's id and a token that the token check accepts for that id throughout its lifetime and refuses as expired after it |
| Handlers.LoginUnknownEmail | server/internal/handler/user.go:134-149 | an unknown email is checked against the zero user's empty hash; if the password check never accepts an empty hash, the answer is 400 "wrong data" |
| Handlers.SignUpThenLogin | server/internal/handler/user.go:143-173 | after a successful sign-up, logging in with that email and a matching password yields the new row's id and a token the gate accepts for it while it lives |

## Findings

| source | as written | input that shows it | evidently intended | confidence | as-written member | corrected member |
|---|---|---|---|---|---|---|
| server/internal/handler/user.go:58-64 | the short-name branch logs and returns `err.Error()`, but `err` is the nil error left by the successful `util.HashPassword`, so the handler panics; the router installs no recover middleware | a sign-up with an unused email, a password that hashes, and `full_name` "Petrov Petr" | answer 500 with an error body and create no user | high; not executed | Handlers.SignUpAsWritten, Handlers.TwoWordNamePanics | Handlers.SignUp |

The corrected branch's error text, "invalid full name", is the model's own. The source has no text for this case.

## Left out

- Wire format: the base64url/JSON bytes of RFC 7515 compact serialization are replaced by the stand-in described above. Several simplifications follow:
  - a wrong segment count gets golang-jwt's own text, "token contains an invalid number of segments". An undecodable payload gets the model's own stand-in text "token is malformed". Go passes on the base64 or JSON decoder's message there, and the stand-in format has no such message;
  - a first segment that names no registered method is always `UnknownAlg` ("signing method (alg) is unavailable."). In Go, a header that does not decode is malformed, and a header without `alg` gets "signing method (alg) is unspecified.";
  - every signature mismatch is `BadSignature` ("signature is invalid"). In Go, a signature segment that is not base64url gets the base64 decoding error instead;
  - a token without `user_id`, which Go decodes as id 0, is treated as malformed.
- HMAC-SHA256 is an ideal seal that is not secret (the key can be read back from a seal). Secrecy of the signing key is not modelled.
- Jwt.SealSeparatesKeys, Jwt.OtherKeyRejected, Jwt.Sign: cross-key rejection is proved for the ideal seal only. Real HMAC (RFC 2104) zero-pads keys shorter than 64 bytes and hashes longer ones, so two keys that agree after that normalisation verify each other's tokens, for example `qwerty` and `qwerty` followed by a NUL byte. Go accepts such tokens where the model answers `BadSignature`. The "under no other key" clause of `Jwt.Sign` is the same ideal-seal fact.
- Jwt.AlteredSignatureRejected, Jwt.AcceptedWasSigned: the ideal seal has exactly one spelling. golang-jwt v4 decodes the signature segment with non-strict `base64.RawURLEncoding`, which ignores the unused low bits of the last character. An HS256 signature is 32 bytes, 43 characters, and its last character carries 2 unused bits, so three other spellings of an issued signature decode to the same MAC and Go accepts them. The model refuses them with `BadSignature`, and says every accepted string is the one canonical spelling.
- Jwt.GenerateAccessToken: reads one `now`. The source reads the clock twice (lines 44 and 45), so `IssuedAr` can be one second later than the base of `ExpiresAt`. The int64-nanosecond overflow of `time.Duration(hours) * time.Hour` (above about 2.5 million hours) is not modelled. `SignedString` cannot fail for HS256 with a byte-slice key, so its error result is not modelled either.
- Jwt.ParseToken: claim numbers are integers. Go decodes them as `float64` and truncates with `int64(...)`. The issuer only writes whole seconds, so fractions arise only in tokens the key holder never makes.
  - The registered `exp`/`iat`/`nbf` checks of `MapClaims.Valid` are not modelled: the issuer never writes those claims, so the checks pass.
  - The unreachable `(0, nil)` returns at `authentification.go:82-89` have no counterpart.
  - Failures carry no id, where the source returns 0 (no caller reads it).
- `GenerateRefreshToken` (`authentification.go:55-67`) is never called; the handlers only log its name.
- Request-body parsing failures (`user.go:27-33`, `user.go:126-132`) are not modelled; requests arrive parsed.
- Database faults are not modelled: the table always answers. These are the 500/400 branches at `user.go:37-42`, `75-81`, `136-141` and `274-279`.
- The `users` table created in `queries.go` has no `third_name` column, while the insert names one. Schema creation is not modelled.
- `strconv.Atoi(config.TokenExpiration)` always gives 1000, so the error branches at `user.go:83-89` and `151-157` cannot be taken. The lifetime is a parameter.
- `util.HashPassword` and `util.CheckPassword` are not part of this model. They become the `Hashing` parameter and the `matches` function.
- `GetUserDataByID` (`user.go:192-230`) is outside the authentication path.
- The cat and favorite handlers, Fiber routing and CORS, logging, configuration and process start-up are glue code with no decision logic. The `/auth` route group has middleware but no routes.
- Concurrency: the logic has none.

=== FILE: gate.dfy ===
/** `WithJWTAuth` of server/pkg/authentification.go: the middleware that
    reads the `Authorization` header, checks the bearer token and either
    answers the request or passes the user id on to the next handler. */
module Gate {
  import opened Text
  import opened Jwt

  const StatusBadRequest := 400
  const StatusUnauthorized := 401

  /** The `err.Error()` text of each `ParseToken` failure. Four are the
      texts golang-jwt v4 and the expiry branch use. `Malformed` has no
      single library text (Go passes on the base64 or JSON decoder's own
      message), so its text here is a stand-in. Some library texts fall
      into a class shown here because the stand-in wire format does not
      distinguish them: "signing method (alg) is unspecified." for a header
      without `alg`, and the base64 decoding error for a signature segment
      that is not base64url. */
  function ErrorText(e: TokenError): string
  {
    match e
    case SegmentCount => "token contains an invalid number of segments"
    case Malformed => "token is malformed"
    case UnknownAlg => "signing method (alg) is unavailable."
    case NotHmac => "invalid signing method"
    case BadSignature => "signature is invalid"
    case Expired => "Token has expired"
  }

  /** What the middleware does with a request: answer it with a status and
      an error text, store `id` under "id" and call `Next`, or panic. */
  datatype Outcome = Halt(status: int, error: string) | Next(id: int) | Crash

  /** The header is "<scheme> <token>" with exactly one space. The scheme
      word can be anything, `Bearer` or not, even empty. */
  predicate TwoWords(header: string)
  {
    ' ' in header && ' ' !in After(header, ' ')
  }

  /** The token part of a two-word header. */
  function TokenOf(header: string): string
    requires TwoWords(header)
  {
    After(header, ' ')
  }

  function WithJwtAuth(header: string, key: string, now: int): (o: Outcome)
    ensures header == "" <==> o == Halt(StatusBadRequest, "Missing auth token")
    ensures o == Halt(StatusUnauthorized, "Invalid auth header") <==> header != "" && !TwoWords(header)
    ensures o.Next? <==> TwoWords(header) && Valid(TokenOf(header), key, now)
    ensures o.Next? ==> o.id == Decode(TokenOf(header)).value.claims.userId
    ensures o.Crash? <==> TwoWords(header) && ParseToken(TokenOf(header), key, now).Panicked?
    ensures o.Halt? && o.status == StatusUnauthorized && TwoWords(header) ==>
      o.error == ErrorText(ParseToken(TokenOf(header), key, now).error)
    ensures TwoWords(header) && ParseToken(TokenOf(header), key, now).Rejected? ==>
      o == Halt(StatusUnauthorized, ErrorText(ParseToken(TokenOf(header), key, now).error))
  {
    if header == "" then Halt(StatusBadRequest, "Missing auth token")
    else
      var parts := Split(header, ' ');
      SplitInTwo(header, ' ');
      if |parts| != 2 then Halt(StatusUnauthorized, "Invalid auth header")
      else
        assert parts[1] == TokenOf(header);
        match ParseToken(parts[1], key, now)
        case Rejected(e) => Halt(StatusUnauthorized, ErrorText(e))
        case Accepted(id) => Next(id)
        case Panicked => Crash
  }

  /** The scheme word is never looked at: two headers that differ only in
      it get the same outcome. */
  lemma SchemeIgnored(s1: string, s2: string, token: string, key: string, now: int)
    requires ' ' !in s1 && ' ' !in s2
    ensures WithJwtAuth(s1 + " " + token, key, now) == WithJwtAuth(s2 + " " + token, key, now)
  {
    IndexOfAfterPrefix(s1, ' ', token);
    IndexOfAfterPrefix(s2, ' ', token);
    assert After(s1 + " " + token, ' ') == token;
    assert After(s2 + " " + token, ' ') == token;
  }

  /** "<scheme> <token>" with no space inside either word is a two-word
      header whose token part is `token`. */
  lemma SchemeAndToken(scheme: string, token: string)
    requires ' ' !in scheme && ' ' !in token
    ensures TwoWords(scheme + " " + token) && TokenOf(scheme + " " + token) == token
  {
    IndexOfAfterPrefix(scheme, ' ', token);
    assert After(scheme + " " + token, ' ') == token;
  }

  /** A header carrying a freshly issued token passes the gate with the
      token's user id until it expires, and is refused as expired after. */
  lemma IssuedTokenPasses(scheme: string, id: int, hours: int, key: string, issued: int, now: int)
    requires ' ' !in scheme
    ensures var o := WithJwtAuth(scheme + " " + GenerateAccessToken(id, hours, key, issued), key, now);
      if now <= issued + hours * SecondsPerHour then o == Next(id)
      else o == Halt(StatusUnauthorized, "Token has expired")
  {
    var token := GenerateAccessToken(id, hours, key, issued);
    SchemeAndToken(scheme, token);
    GenerateThenParse(id, hours, key, issued, now);
  }

  /** Two spaces in a row leave a space after the first: refused as an
      invalid header, with no normalisation ("Bearer  t"). */
  lemma DoubleSpaceRefused(scheme: string, rest: string, key: string, now: int)
    requires ' ' !in scheme
    ensures WithJwtAuth(scheme + "  " + rest, key, now) == Halt(StatusUnauthorized, "Invalid auth header")
  {
    var header := scheme + " " + (" " + rest);
    assert header == scheme + "  " + rest;
    IndexOfAfterPrefix(scheme, ' ', " " + rest);
    assert After(header, ' ')[0] == ' ';
  }

  /** A non-empty header without a space ("onlyonepart") is refused as an invalid header. */
  lemma OneWordRefused(header: string, key: string, now: int)
    requires header != "" && ' ' !in header
    ensures WithJwtAuth(header, key, now) == Halt(StatusUnauthorized, "Invalid auth header")
  {
  }

  /** "<scheme> " splits into the scheme and an empty token, which the token
      check refuses for its segment count: one segment, not three. */
  lemma EmptyTokenRefused(scheme: string, key: string, now: int)
    requires ' ' !in scheme
    ensures WithJwtAuth(scheme + " ", key, now) == Halt(StatusUnauthorized, "token contains an invalid number of segments")
  {
    IndexOfAfterPrefix(scheme, ' ', "");
    assert After(scheme + " ", ' ') == "";
    assert Split("", '.') == [""];
    assert ParseToken("", key, now) == Rejected(SegmentCount);
  }
}

=== FILE: handlers.dfy ===
/** The decision logic of the user handlers in
    server/internal/handler/user.go: `CheckAuth`, `SignUp` and `Login`.
    Request-body parsing, logging and database faults are outside the model;
    the clock, the key, the token lifetime and password hashing are
    parameters. */
module Handlers {
  import opened Text
  import opened Jwt
  import opened Gate
  import opened Users

  const StatusOK := 200
  const StatusInternalServerError := 500

  /** JSON bodies: `{"error": …}` or `{"access_token": …, "id": …}`. */
  datatype Body = Failure(error: string) | Granted(accessToken: string, id: int)

  /** An HTTP answer, or a run-time panic of the handler goroutine (the
      router installs no recover middleware). */
  datatype Response = Reply(status: int, body: Body) | Panic

  /** A response together with the table after the request. */
  datatype Exchange = Exchange(response: Response, store: Store)

  predicate IsOk(r: Response)
  {
    r.Reply? && r.status == StatusOK
  }

  // -----------------------------------------------------------------------
  // CheckAuth: documented as GET /login, but the router registers no route
  // for it.

  /** Repeats the gate's header and token checks inline, then requires the
      user to exist, and answers with the very token it was given. The
      contract states that the inline copy behaves exactly as the
      middleware followed by the existence check. */
  function CheckAuth(st: Store, header: string, key: string, now: int): (r: Response)
    ensures r == match WithJwtAuth(header, key, now)
      case Halt(status, error) => Reply(status, Failure(error))
      case Crash => Panic
      case Next(id) =>
        if IdTaken(st, id) then Reply(StatusOK, Granted(TokenOf(header), id))
        else Reply(StatusInternalServerError, Failure("user not exists"))
  {
    if header == "" then Reply(StatusBadRequest, Failure("Missing auth token"))
    else
      var parts := Split(header, ' ');
      SplitInTwo(header, ' ');
      if |parts| != 2 then Reply(StatusUnauthorized, Failure("Invalid auth header"))
      else
        var token := parts[1];
        match ParseToken(token, key, now)
        case Rejected(e) => Reply(StatusUnauthorized, Failure(ErrorText(e)))
        case Panicked => Panic
        case Accepted(id) =>
          if !IdTaken(st, id) then Reply(StatusInternalServerError, Failure("user not exists"))
          else Reply(StatusOK, Granted(token, id))
  }

  /** A live token for an existing user is echoed back unchanged with its
      id; no new token is minted. */
  lemma CheckAuthEchoesToken(st: Store, scheme: string, id: int, hours: int, key: string, issued: int, now: int)
    requires ' ' !in scheme && IdTaken(st, id)
    requires now <= issued + hours * SecondsPerHour
    ensures var token := GenerateAccessToken(id, hours, key, issued);
      CheckAuth(st, scheme + " " + token, key, now) == Reply(StatusOK, Granted(token, id))
  {
    var token := GenerateAccessToken(id, hours, key, issued);
    IssuedTokenPasses(scheme, id, hours, key, issued, now);
    SchemeAndToken(scheme, token);
  }

  /** A live token whose user is gone from the table is answered with 500. */
  lemma CheckAuthUnknownUser(st: Store, scheme: string, id: int, hours: int, key: string, issued: int, now: int)
    requires ' ' !in scheme && !IdTaken(st, id)
    requires now <= issued + hours * SecondsPerHour
    ensures CheckAuth(st, scheme + " " + GenerateAccessToken(id, hours, key, issued), key, now)
      == Reply(StatusInternalServerError, Failure("user not exists"))
  {
    IssuedTokenPasses(scheme, id, hours, key, issued, now);
  }

  // -----------------------------------------------------------------------
  // SignUp (POST /signup)

  /** `entities.CreateUserRequest`. */
  datatype SignUpRequest = SignUpRequest(password: string, email: string, fullName: string)

  /** The outcome of `util.HashPassword` on the request's password. */
  datatype Hashing = Hashed(hash: string) | HashFailed(error: string)

  /** Error text of the corrected short-name branch. */
  const InvalidFullName := "invalid full name"

  /** The full name has at least three space-separated words. */
  predicate ThreeWords(fullName: string)
  {
    Count(fullName, ' ') >= 2
  }

  /** `SignUp` with the short-name branch answering 500 instead of
      panicking: refuses a taken email, a failed hash and a full name of
      fewer than three words, and otherwise inserts the user, mapping the
      first three words to surname, name and third name, and answers with a
      token for the new id. */
  function SignUp(st: Store, req: SignUpRequest, hashing: Hashing, key: string, hours: int, now: int): (x: Exchange)
    ensures EmailTaken(st, req.email) ==>
      x == Exchange(Reply(StatusBadRequest, Failure("user already exists")), st)
    ensures !EmailTaken(st, req.email) && hashing.HashFailed? ==>
      x == Exchange(Reply(StatusInternalServerError, Failure(hashing.error)), st)
    ensures !EmailTaken(st, req.email) && hashing.Hashed? && !ThreeWords(req.fullName) ==>
      x == Exchange(Reply(StatusInternalServerError, Failure(InvalidFullName)), st)
    ensures x.store != st <==> IsOk(x.response)
    ensures Consistent(st) ==> Consistent(x.store)
    ensures IsOk(x.response) ==>
      && !EmailTaken(st, req.email) && hashing.Hashed? && ThreeWords(req.fullName)
      && |x.store.users| == |st.users| + 1
      && x.store.users[..|st.users|] == st.users
      && var u := x.store.users[|st.users|];
         && u.email == req.email
         && u.password == hashing.hash
         && (Consistent(st) ==> !IdTaken(st, u.id))
         && x.response.body.Granted?
         && x.response.body.id == u.id
         && Decode(x.response.body.accessToken).Some?
         && Decode(x.response.body.accessToken).value.claims.userId == u.id
         && (forall t :: now <= t <= now + hours * SecondsPerHour ==>
               ParseToken(x.response.body.accessToken, key, t) == Accepted(u.id))
         && (forall t :: t > now + hours * SecondsPerHour ==>
               ParseToken(x.response.body.accessToken, key, t) == Rejected(Expired))
  {
    if EmailTaken(st, req.email) then
      Exchange(Reply(StatusBadRequest, Failure("user already exists")), st)
    else match hashing
      case HashFailed(e) => Exchange(Reply(StatusInternalServerError, Failure(e)), st)
      case Hashed(hash) =>
        var fullname := Split(req.fullName, ' ');
        if |fullname| < 3 then
          Exchange(Reply(StatusInternalServerError, Failure(InvalidFullName)), st)
        else
          var user := User(0, hash, req.email, fullname[1], fullname[0], fullname[2]);
          var (st', id) := Insert(st, user);
          assert st'.users[..|st.users|] == st.users;
          assert |st'.users| != |st.users|;
          Exchange(Reply(StatusOK, Granted(GenerateAccessToken(id, hours, key, now), id)), st')
  }

  /** `SignUp` as written: the short-name branch logs `err.Error()` while
      `err` is the nil error of the successful hash, which panics. Every
      other input is handled as in `SignUp`. */
  function SignUpAsWritten(st: Store, req: SignUpRequest, hashing: Hashing, key: string, hours: int, now: int): (x: Exchange)
    ensures x.response.Panic? <==>
      !EmailTaken(st, req.email) && hashing.Hashed? && !ThreeWords(req.fullName)
    ensures !x.response.Panic? ==> x == SignUp(st, req, hashing, key, hours, now)
  {
    if !EmailTaken(st, req.email) && hashing.Hashed? && |Split(req.fullName, ' ')| < 3 then
      Exchange(Panic, st)
    else SignUp(st, req, hashing, key, hours, now)
  }

  /** A two-word full name with a fresh email and a successful hash: the
      code as written panics, where the corrected handler answers 500 and
      leaves the table alone. */
  lemma TwoWordNamePanics(st: Store, req: SignUpRequest, hash: string, key: string, hours: int, now: int,
                          surname: string, name: string)
    requires !EmailTaken(st, req.email)
    requires ' ' !in surname && ' ' !in name
    requires req.fullName == surname + " " + name
    ensures SignUpAsWritten(st, req, Hashed(hash), key, hours, now).response == Panic
    ensures SignUp(st, req, Hashed(hash), key, hours, now)
      == Exchange(Reply(StatusInternalServerError, Failure(InvalidFullName)), st)
  {
    CountAppend(surname + " ", name, ' ');
    CountAppend(surname, " ", ' ');
    CountZero(surname, ' ');
    CountZero(name, ' ');
  }

  /** The first three words become surname, name and third name; any
      further words are dropped. */
  lemma {:induction false} SignUpMapsNames(st: Store, req: SignUpRequest, hash: string, key: string, hours: int, now: int,
                                           surname: string, name: string, thirdName: string, tail: string)
    requires !EmailTaken(st, req.email)
    requires ' ' !in surname && ' ' !in name && ' ' !in thirdName
    requires tail == "" || tail[0] == ' '
    requires req.fullName == surname + " " + (name + " " + (thirdName + tail))
    ensures var x := SignUp(st, req, Hashed(hash), key, hours, now);
      && IsOk(x.response)
      && x.store.users[|st.users|].surname == surname
      && x.store.users[|st.users|].name == name
      && x.store.users[|st.users|].thirdName == thirdName
  {
    SplitLeadingWords(surname, name, thirdName, tail, ' ');
  }

  // -----------------------------------------------------------------------
  // Login (POST /login)

  /** `entities.LoginUserRequest`. */
  datatype LoginRequest = LoginRequest(email: string, password: string)

  /** Looks the email up (a missing row reads as the zero user), checks the
      password with `matches` (standing in for `util.CheckPassword`), and
      answers with a token for the stored row's id. */
  function Login(st: Store, req: LoginRequest, matches: (string, string) -> bool,
                 key: string, hours: int, now: int): (r: Response)
    ensures var u := UserGetByEmail(st, req.email);
      && (!matches(req.password, u.password) ==> r == Reply(StatusBadRequest, Failure("wrong data")))
      && (matches(req.password, u.password) ==>
            && IsOk(r) && r.body.Granted? && r.body.id == u.id
            && (forall t :: now <= t <= now + hours * SecondsPerHour ==>
                  ParseToken(r.body.accessToken, key, t) == Accepted(u.id))
            && (forall t :: t > now + hours * SecondsPerHour ==>
                  ParseToken(r.body.accessToken, key, t) == Rejected(Expired)))
  {
    var u := UserGetByEmail(st, req.email);
    if !matches(req.password, u.password) then Reply(StatusBadRequest, Failure("wrong data"))
    else Reply(StatusOK, Granted(GenerateAccessToken(u.id, hours, key, now), u.id))
  }

  /** An unknown email is checked against the zero user's empty hash; with a
      password check that never accepts an empty hash (bcrypt refuses it as
      too short) the answer is "wrong data" and no token is issued. */
  lemma LoginUnknownEmail(st: Store, req: LoginRequest, matches: (string, string) -> bool,
                          key: string, hours: int, now: int)
    requires !EmailTaken(st, req.email)
    requires !matches(req.password, "")
    ensures Login(st, req, matches, key, hours, now) == Reply(StatusBadRequest, Failure("wrong data"))
  {
  }

  /** After a successful sign-up, logging in with the same email and a
      password that matches the stored hash yields a token that the gate
      accepts for the new user's id. */
  lemma SignUpThenLogin(st: Store, req: SignUpRequest, hash: string, matches: (string, string) -> bool,
                        key: string, hours: int, now: int, scheme: string, later: int)
    requires Consistent(st)
    requires IsOk(SignUp(st, req, Hashed(hash), key, hours, now).response)
    requires matches(req.password, hash)
    requires ' ' !in scheme
    requires now <= later <= now + hours * SecondsPerHour
    ensures var x := SignUp(st, req, Hashed(hash), key, hours, now);
      var id := x.store.users[|st.users|].id;
      var r := Login(x.store, LoginRequest(req.email, req.password), matches, key, hours, now);
      && IsOk(r) && r.body.id == id
      && WithJwtAuth(scheme + " " + r.body.accessToken, key, later) == Next(id)
  {
    var x := SignUp(st, req, Hashed(hash), key, hours, now);
    var added := x.store.users[|st.users|];
    assert added in x.store.users;
    assert EmailTaken(x.store, req.email);
    var u := UserGetByEmail(x.store, req.email);
    EmailNamesOneRow(x.store, u, added);
    var r := Login(x.store, LoginRequest(req.email, req.password), matches, key, hours, now);
    IssuedTokenPasses(scheme, added.id, hours, key, now, later);
  }
}

=== FILE: jwt.dfy ===
/** The access-token codec of server/pkg/authentification.go: the claim
    record, issuing a token (`GenerateAccessToken`) and checking one
    (`ParseToken`).

    The compact serialization keeps the shape of RFC 7515 compact form
    (three '.'-separated segments: algorithm, payload, signature) but not its
    base64url/JSON bytes. HMAC-SHA256 (section 3.2 of RFC 7518) is replaced by
    an ideal keyed seal: verification recomputes the seal and compares, and a
    different key or a different signing input gives a different seal. The
    seal is not secret; secrecy of the key is outside this model. */
module Jwt {
  import opened Text

  /** The signing methods golang-jwt v4 registers under their `alg` names. */
  datatype Alg =
    | HS256 | HS384 | HS512
    | RS256 | RS384 | RS512
    | ES256 | ES384 | ES512
    | PS256 | PS384 | PS512
    | EdDSA | Unsigned

  /** The HMAC family (`*jwt.SigningMethodHMAC`). */
  predicate IsHmac(a: Alg)
  {
    a == HS256 || a == HS384 || a == HS512
  }

  function AlgName(a: Alg): string
  {
    match a
    case HS256 => "HS256"
    case HS384 => "HS384"
    case HS512 => "HS512"
    case RS256 => "RS256"
    case RS384 => "RS384"
    case RS512 => "RS512"
    case ES256 => "ES256"
    case ES384 => "ES384"
    case ES512 => "ES512"
    case PS256 => "PS256"
    case PS384 => "PS384"
    case PS512 => "PS512"
    case EdDSA => "EdDSA"
    case Unsigned => "none"
  }

  /** The library's method lookup by `alg` name; unknown names find nothing. */
  function AlgOfName(name: string): (r: Option<Alg>)
    ensures r.Some? ==> AlgName(r.value) == name
  {
    if name == "HS256" then Some(HS256)
    else if name == "HS384" then Some(HS384)
    else if name == "HS512" then Some(HS512)
    else if name == "RS256" then Some(RS256)
    else if name == "RS384" then Some(RS384)
    else if name == "RS512" then Some(RS512)
    else if name == "ES256" then Some(ES256)
    else if name == "ES384" then Some(ES384)
    else if name == "ES512" then Some(ES512)
    else if name == "PS256" then Some(PS256)
    else if name == "PS384" then Some(PS384)
    else if name == "PS512" then Some(PS512)
    else if name == "EdDSA" then Some(EdDSA)
    else if name == "none" then Some(Unsigned)
    else None
  }

  lemma AlgNameFound(a: Alg)
    ensures AlgOfName(AlgName(a)) == Some(a)
  {
  }

  /** A value under a claim name as the decoder finds it: missing, a number,
      or something else (a string, a boolean, an object). */
  datatype ClaimValue = Absent | Number(n: int) | NonNumber

  /** `tokenClaims`: the user id plus the two custom claims `IssuedAr` and
      `ExpiresAt` (not the registered `iat`/`exp` of RFC 7519). */
  datatype Claims = Claims(userId: int, issuedAr: ClaimValue, expiresAt: ClaimValue)

  datatype Token = Token(alg: Alg, claims: Claims, signature: string)

  const SecondsPerHour := 3600

  function ValueText(v: ClaimValue): string
  {
    match v
    case Absent => ""
    case Number(n) => IntText(n)
    case NonNumber => "~"
  }

  function ParseValue(s: string): (r: Option<ClaimValue>)
    ensures r.Some? ==> ValueText(r.value) == s
  {
    if s == "" then Some(Absent)
    else if s == "~" then Some(NonNumber)
    else match ParseInt(s)
      case Some(n) => Some(Number(n))
      case None => None
  }

  lemma ParseValueText(v: ClaimValue)
    ensures ParseValue(ValueText(v)) == Some(v)
  {
    match v
    case Absent =>
    case NonNumber =>
    case Number(n) =>
      ParseIntText(n);
      assert IntText(n) != "~" by { assert IntText(n)[0] != '~'; }
  }

  predicate FieldSafe(s: string)
  {
    forall i :: 0 <= i < |s| ==> IsDigit(s[i]) || s[i] == '-' || s[i] == '~'
  }

  lemma ValueTextSafe(v: ClaimValue)
    ensures FieldSafe(ValueText(v))
  {
  }

  function PayloadFields(c: Claims): seq<string>
  {
    [IntText(c.userId), ValueText(c.issuedAr), ValueText(c.expiresAt)]
  }

  function PayloadText(c: Claims): string
  {
    Join(PayloadFields(c), ',')
  }

  function ParsePayload(s: string): (r: Option<Claims>)
    ensures r.Some? ==> PayloadText(r.value) == s
  {
    var f := Split(s, ',');
    JoinSplit(s, ',');
    if |f| != 3 then None
    else match (ParseInt(f[0]), ParseValue(f[1]), ParseValue(f[2]))
      case (Some(u), Some(i), Some(e)) =>
        assert PayloadFields(Claims(u, i, e)) == f;
        Some(Claims(u, i, e))
      case _ => None
  }

  /** No payload field contains a separator of the compact form or of the header. */
  lemma FieldsExclude(c: Claims, x: char)
    requires x == ',' || x == '.' || x == ' '
    ensures forall i :: 0 <= i < 3 ==> x !in PayloadFields(c)[i]
  {
    var f := PayloadFields(c);
    ValueTextSafe(c.issuedAr);
    ValueTextSafe(c.expiresAt);
    forall i | 0 <= i < 3
      ensures x !in f[i]
    {
      if x in f[i] {
        var j :| 0 <= j < |f[i]| && f[i][j] == x;
      }
    }
  }

  lemma {:induction false} ParsePayloadText(c: Claims)
    ensures ParsePayload(PayloadText(c)) == Some(c)
  {
    FieldsExclude(c, ',');
    SplitJoin(PayloadFields(c), ',');
    ParseIntText(c.userId);
    ParseValueText(c.issuedAr);
    ParseValueText(c.expiresAt);
  }

  /** Neither an algorithm name nor a payload contains '.' or ' '. */
  lemma HeaderAndPayloadSafe(a: Alg, c: Claims)
    ensures '.' !in AlgName(a) && ' ' !in AlgName(a)
    ensures '.' !in PayloadText(c) && ' ' !in PayloadText(c)
  {
    FieldsExclude(c, '.');
    FieldsExclude(c, ' ');
    JoinExcludes(PayloadFields(c), ',', '.');
    JoinExcludes(PayloadFields(c), ',', ' ');
  }

  /** The signed text: the first two segments joined by '.'. */
  function SigningInput(a: Alg, c: Claims): string
  {
    AlgName(a) + "." + PayloadText(c)
  }

  /** Ideal MAC standing in for HMAC under `key`. */
  function Seal(key: string, input: string): (sig: string)
    ensures '.' !in sig && ' ' !in sig
  {
    Escape(key) + "#" + Escape(input)
  }

  /** A different key never yields the same seal of the same text. */
  lemma SealSeparatesKeys(k1: string, k2: string, input: string)
    requires k1 != k2
    ensures Seal(k1, input) != Seal(k2, input)
  {
    if Seal(k1, input) == Seal(k2, input) {
      var tail := "#" + Escape(input);
      assert Escape(k1) == Seal(k1, input)[..|Seal(k1, input)| - |tail|];
      assert Escape(k2) == Seal(k2, input)[..|Seal(k2, input)| - |tail|];
      EscapeInjective(k1, k2);
    }
  }

  /** The same key never yields the same seal of two different texts. */
  lemma SealSeparatesInputs(key: string, m1: string, m2: string)
    requires m1 != m2
    ensures Seal(key, m1) != Seal(key, m2)
  {
    if Seal(key, m1) == Seal(key, m2) {
      var head := Escape(key) + "#";
      assert Escape(m1) == Seal(key, m1)[|head|..];
      assert Escape(m2) == Seal(key, m2)[|head|..];
      EscapeInjective(m1, m2);
    }
  }

  lemma {:induction false} SigningInputInjective(a1: Alg, c1: Claims, a2: Alg, c2: Claims)
    requires (a1, c1) != (a2, c2)
    ensures SigningInput(a1, c1) != SigningInput(a2, c2)
  {
    if SigningInput(a1, c1) == SigningInput(a2, c2) {
      HeaderAndPayloadSafe(a1, c1);
      HeaderAndPayloadSafe(a2, c2);
      var s := SigningInput(a1, c1);
      IndexOfAfterPrefix(AlgName(a1), '.', PayloadText(c1));
      IndexOfAfterPrefix(AlgName(a2), '.', PayloadText(c2));
      assert s[..|AlgName(a1)|] == AlgName(a1);
      assert s[..|AlgName(a2)|] == AlgName(a2);
      assert AlgName(a1) == AlgName(a2);
      AlgNameFound(a1);
      AlgNameFound(a2);
      assert PayloadText(c1) == s[|AlgName(a1)| + 1..] == PayloadText(c2);
      ParsePayloadText(c1);
      ParsePayloadText(c2);
    }
  }

  /** `t` carries the seal of its own header and claims under `key`. */
  predicate SignedWith(t: Token, key: string)
  {
    t.signature == Seal(key, SigningInput(t.alg, t.claims))
  }

  /** `jwt.NewWithClaims(alg, claims)` followed by signing under `key`. */
  function Sign(a: Alg, c: Claims, key: string): (t: Token)
    ensures t.alg == a && t.claims == c && SignedWith(t, key)
    ensures forall k :: k != key ==> !SignedWith(t, k)
  {
    forall k | k != key
      ensures !SignedWith(Token(a, c, Seal(key, SigningInput(a, c))), k)
    {
      SealSeparatesKeys(key, k, SigningInput(a, c));
    }
    Token(a, c, Seal(key, SigningInput(a, c)))
  }

  /** The compact form: algorithm, payload and signature joined by '.'. */
  function Encode(t: Token): string
  {
    Join([AlgName(t.alg), PayloadText(t.claims), t.signature], '.')
  }

  /** Reads the compact form back; `None` for anything `Encode` cannot produce. */
  function Decode(s: string): Option<Token>
  {
    var p := Split(s, '.');
    if |p| != 3 then None
    else
      var a := AlgOfName(p[0]);
      var c := ParsePayload(p[1]);
      if a.None? || c.None? then None else Some(Token(a.value, c.value, p[2]))
  }

  /** Decoding is canonical: whatever decodes is re-encoded to the same text. */
  lemma DecodedEncodesBack(s: string)
    requires Decode(s).Some?
    ensures Encode(Decode(s).value) == s
  {
    var p := Split(s, '.');
    JoinSplit(s, '.');
    var t := Decode(s).value;
    assert [AlgName(t.alg), PayloadText(t.claims), t.signature] == p;
  }

  lemma {:induction false} DecodeEncode(t: Token)
    requires '.' !in t.signature
    ensures Decode(Encode(t)) == Some(t)
  {
    HeaderAndPayloadSafe(t.alg, t.claims);
    var p := [AlgName(t.alg), PayloadText(t.claims), t.signature];
    SplitJoin(p, '.');
    AlgNameFound(t.alg);
    ParsePayloadText(t.claims);
  }

  /** A compact token never contains a space, so it survives a header split. */
  lemma EncodeHasNoSpace(t: Token)
    requires ' ' !in t.signature
    ensures ' ' !in Encode(t)
  {
    HeaderAndPayloadSafe(t.alg, t.claims);
    JoinExcludes([AlgName(t.alg), PayloadText(t.claims), t.signature], '.', ' ');
  }

  /** Issues an HS256 token for user `id` at time `now` (Unix seconds) that
      expires `hours` hours later. */
  function GenerateAccessToken(id: int, hours: int, key: string, now: int): (s: string)
    ensures Decode(s).Some?
    ensures Decode(s).value.alg == HS256
    ensures Decode(s).value.claims.userId == id
    ensures Decode(s).value.claims.issuedAr == Number(now)
    ensures Decode(s).value.claims.expiresAt == Number(now + hours * SecondsPerHour)
    ensures SignedWith(Decode(s).value, key)
    ensures ' ' !in s
  {
    var t := Sign(HS256, Claims(id, Number(now), Number(now + hours * SecondsPerHour)), key);
    DecodeEncode(t);
    EncodeHasNoSpace(t);
    Encode(t)
  }

  /** Why a token is refused. */
  datatype TokenError =
    | SegmentCount  // not exactly three '.'-separated segments
    | Malformed     // undecodable claims
    | UnknownAlg    // no signing method registered under the `alg` name
    | NotHmac       // refused by the key callback: not an HMAC method
    | BadSignature  // the signature does not verify under the key
    | Expired       // `now` is past the `ExpiresAt` claim

  /** What `ParseToken` ends in: an id, an error, or a run-time panic from
      the unchecked type assertion on `ExpiresAt`. */
  datatype Verdict = Accepted(id: int) | Rejected(error: TokenError) | Panicked

  /** Token `s` is an authentic, unexpired token under `key` at `now`. */
  predicate Valid(s: string, key: string, now: int)
  {
    && Decode(s).Some?
    && IsHmac(Decode(s).value.alg)
    && SignedWith(Decode(s).value, key)
    && Decode(s).value.claims.expiresAt.Number?
    && now <= Decode(s).value.claims.expiresAt.n
  }

  /** How `Decode` reads the three segments, and that the first two are the signed text. */
  lemma DecodeSegments(s: string)
    ensures var p := Split(s, '.');
      Decode(s).Some? <==> |p| == 3 && AlgOfName(p[0]).Some? && ParsePayload(p[1]).Some?
    ensures Decode(s).Some? ==>
      var p := Split(s, '.');
      && Decode(s).value == Token(AlgOfName(p[0]).value, ParsePayload(p[1]).value, p[2])
      && p[0] + "." + p[1] == SigningInput(Decode(s).value.alg, Decode(s).value.claims)
  {
  }

  /** `ParseToken(tokenString, signingKey)` at wall-clock time `now`, in the
      order golang-jwt v4 checks: segments and claims, method lookup, the key
      callback's HMAC test, the signature, then the `ExpiresAt` comparison. */
  function ParseToken(s: string, key: string, now: int): (v: Verdict)
    ensures v.Accepted? <==> Valid(s, key, now)
    ensures v.Accepted? ==> v.id == Decode(s).value.claims.userId
    ensures v == Rejected(Expired) <==>
      && Decode(s).Some?
      && IsHmac(Decode(s).value.alg)
      && SignedWith(Decode(s).value, key)
      && Decode(s).value.claims.expiresAt.Number?
      && now > Decode(s).value.claims.expiresAt.n
    ensures v.Panicked? <==>
      && Decode(s).Some?
      && IsHmac(Decode(s).value.alg)
      && SignedWith(Decode(s).value, key)
      && !Decode(s).value.claims.expiresAt.Number?
    ensures v == Rejected(BadSignature) <==>
      && Decode(s).Some?
      && IsHmac(Decode(s).value.alg)
      && !SignedWith(Decode(s).value, key)
    ensures Decode(s).Some? && !IsHmac(Decode(s).value.alg) <==> v == Rejected(NotHmac)
    ensures Decode(s).None? <==> v == Rejected(SegmentCount) || v == Rejected(Malformed) || v == Rejected(UnknownAlg)
    ensures v == Rejected(SegmentCount) <==> |Split(s, '.')| != 3
  {
    DecodeSegments(s);
    var p := Split(s, '.');
    if |p| != 3 then Rejected(SegmentCount)
    else match ParsePayload(p[1])
      case None => Rejected(Malformed)
      case Some(c) =>
        match AlgOfName(p[0])
        case None => Rejected(UnknownAlg)
        case Some(a) =>
          if !IsHmac(a) then Rejected(NotHmac)
          else if p[2] != Seal(key, p[0] + "." + p[1]) then Rejected(BadSignature)
          else match c.expiresAt
            case Number(e) => if now > e then Rejected(Expired) else Accepted(c.userId)
            case _ => Panicked
  }

  // -----------------------------------------------------------------------
  // What issuing and checking promise about each other.

  /** An HMAC-signed token with a numeric `ExpiresAt` is accepted, with its
      own user id, up to and including that second, and is expired after. */
  lemma {:induction false} ParseSigned(a: Alg, c: Claims, key: string, now: int)
    requires IsHmac(a) && c.expiresAt.Number?
    ensures ParseToken(Encode(Sign(a, c, key)), key, now) ==
      if now <= c.expiresAt.n then Accepted(c.userId) else Rejected(Expired)
  {
    DecodeEncode(Sign(a, c, key));
  }

  /** Every accepted string is exactly the compact form of a token that the
      holder of `key` signed with an HMAC method, for the id it yields. */
  lemma AcceptedWasSigned(s: string, key: string, now: int)
    requires ParseToken(s, key, now).Accepted?
    ensures exists a: Alg, c: Claims ::
      && IsHmac(a)
      && s == Encode(Sign(a, c, key))
      && c.userId == ParseToken(s, key, now).id
  {
    var t := Decode(s).value;
    DecodedEncodesBack(s);
    assert Sign(t.alg, t.claims, key) == t;
  }

  /** Round trip: a token from `GenerateAccessToken(id, hours, key)` issued
      at `issued` yields `id` under the same key until `ExpiresAt`, inclusive. */
  lemma GenerateThenParse(id: int, hours: int, key: string, issued: int, now: int)
    ensures ParseToken(GenerateAccessToken(id, hours, key, issued), key, now) ==
      if now <= issued + hours * SecondsPerHour then Accepted(id) else Rejected(Expired)
  {
  }

  /** A token issued under one key fails the signature check under any other. */
  lemma OtherKeyRejected(id: int, hours: int, key: string, other: string, issued: int, now: int)
    requires other != key
    ensures ParseToken(GenerateAccessToken(id, hours, key, issued), other, now) == Rejected(BadSignature)
  {
    var t := Decode(GenerateAccessToken(id, hours, key, issued)).value;
    SealSeparatesKeys(key, other, SigningInput(t.alg, t.claims));
  }

  /** Replacing the signature segment of a signed HMAC token with any other
      `.`-free text fails the check. */
  lemma AlteredSignatureRejected(a: Alg, c: Claims, key: string, sig: string, now: int)
    requires IsHmac(a) && '.' !in sig
    requires sig != Sign(a, c, key).signature
    ensures ParseToken(Encode(Token(a, c, sig)), key, now) == Rejected(BadSignature)
  {
    DecodeEncode(Token(a, c, sig));
  }

  /** Keeping the signature but changing the algorithm to another HMAC method,
      or the claims, fails the check. */
  lemma AlteredClaimsRejected(a: Alg, c: Claims, a2: Alg, c2: Claims, key: string, now: int)
    requires IsHmac(a2)
    requires (a2, c2) != (a, c)
    ensures ParseToken(Encode(Token(a2, c2, Sign(a, c, key).signature)), key, now) == Rejected(BadSignature)
  {
    var t := Token(a2, c2, Sign(a, c, key).signature);
    DecodeEncode(t);
    SigningInputInjective(a, c, a2, c2);
    SealSeparatesInputs(key, SigningInput(a, c), SigningInput(a2, c2));
  }

  /** A token naming a non-HMAC method (`none` included) is refused whatever
      its signature and whatever key or time the check is given. */
  lemma NonHmacRejected(a: Alg, c: Claims, sig: string, key: string, now: int)
    requires !IsHmac(a) && '.' !in sig
    ensures ParseToken(Encode(Token(a, c, sig)), key, now) == Rejected(NotHmac)
  {
    DecodeEncode(Token(a, c, sig));
  }

  /** With a one-hour lifetime the token still works 59 minutes and exactly
      3600 seconds after issue, and is expired at 3601 seconds and at 61 minutes. */
  lemma OneHourBoundary(id: int, key: string, issued: int)
    ensures ParseToken(GenerateAccessToken(id, 1, key, issued), key, issued + 59 * 60) == Accepted(id)
    ensures ParseToken(GenerateAccessToken(id, 1, key, issued), key, issued + 3600) == Accepted(id)
    ensures ParseToken(GenerateAccessToken(id, 1, key, issued), key, issued + 3601) == Rejected(Expired)
    ensures ParseToken(GenerateAccessToken(id, 1, key, issued), key, issued + 61 * 60) == Rejected(Expired)
  {
  }
}

=== FILE: text.dfy ===
/** String helpers the authentication path relies on: Go's `strings.Split`
    on a one-character separator and its inverse `Join`, a reversible escape
    that keeps separators out of a segment, and canonical decimal integers. */
module Text {

  datatype Option<+T> = None | Some(value: T)

  /** Position of the first `sep` in `s`. */
  function IndexOf(s: string, sep: char): (i: int)
    requires sep in s
    ensures 0 <= i < |s| && s[i] == sep
    ensures sep !in s[..i]
  {
    if s[0] == sep then 0
    else
      assert sep in s[1..];
      1 + IndexOf(s[1..], sep)
  }

  /** The first `sep` of `a + [sep] + b` is the one between them when `a` has none. */
  lemma IndexOfAfterPrefix(a: string, sep: char, b: string)
    requires sep !in a
    ensures sep in a + [sep] + b
    ensures IndexOf(a + [sep] + b, sep) == |a|
  {
    var s := a + [sep] + b;
    assert s[|a|] == sep;
  }

  /** Concatenation of `parts` with `sep` between neighbours. */
  function Join(parts: seq<string>, sep: char): string
  {
    if |parts| == 0 then ""
    else if |parts| == 1 then parts[0]
    else parts[0] + [sep] + Join(parts[1..], sep)
  }

  /** Number of occurrences of `c` in `s`. */
  function Count(s: string, c: char): nat
  {
    if |s| == 0 then 0 else (if s[0] == c then 1 else 0) + Count(s[1..], c)
  }

  /** `c` does not occur exactly when it is counted zero times. */
  lemma {:induction false} CountZero(s: string, c: char)
    ensures Count(s, c) == 0 <==> c !in s
  {
    if |s| > 0 {
      CountZero(s[1..], c);
      assert s == [s[0]] + s[1..];
    }
  }

  /** Counting distributes over concatenation. */
  lemma {:induction false} CountAppend(a: string, b: string, c: char)
    ensures Count(a + b, c) == Count(a, c) + Count(b, c)
  {
    if |a| > 0 {
      CountAppend(a[1..], b, c);
      assert (a + b)[1..] == a[1..] + b;
    } else {
      assert a + b == b;
    }
  }

  /** `strings.Split(s, string(sep))`: every single `sep` separates, empty
      pieces are kept, and a string without `sep` (the empty one included)
      is one piece. */
  function Split(s: string, sep: char): (parts: seq<string>)
    ensures |parts| == Count(s, sep) + 1
    decreases |s|
  {
    if |s| == 0 then [""]
    else
      var rest := Split(s[1..], sep);
      if s[0] == sep then [""] + rest
      else [[s[0]] + rest[0]] + rest[1..]
  }

  /** No piece contains the separator. */
  lemma {:induction false} SplitPiecesFree(s: string, sep: char)
    ensures forall i :: 0 <= i < |Split(s, sep)| ==> sep !in Split(s, sep)[i]
    decreases |s|
  {
    if |s| > 0 {
      SplitPiecesFree(s[1..], sep);
      var rest := Split(s[1..], sep);
      if s[0] != sep {
        assert sep !in rest[0];
        assert sep !in [s[0]] + rest[0];
      }
    }
  }

  /** Prefixing a character to the first piece prefixes it to the joined text. */
  lemma JoinCons(c: char, parts: seq<string>, sep: char)
    requires |parts| >= 1
    ensures Join([[c] + parts[0]] + parts[1..], sep) == [c] + Join(parts, sep)
  {
    var q := [[c] + parts[0]] + parts[1..];
    assert q[1..] == parts[1..];
  }

  /** Joining the pieces gives the split text back. */
  lemma {:induction false} JoinSplit(s: string, sep: char)
    ensures Join(Split(s, sep), sep) == s
    decreases |s|
  {
    if |s| > 0 {
      var rest := Split(s[1..], sep);
      JoinSplit(s[1..], sep);
      if s[0] == sep {
        assert ([""] + rest)[1..] == rest;
      } else {
        JoinCons(s[0], rest, sep);
      }
      assert s == [s[0]] + s[1..];
    }
  }

  /** A text without the separator is a single piece. */
  lemma SplitNone(s: string, sep: char)
    requires sep !in s
    ensures Split(s, sep) == [s]
  {
    CountZero(s, sep);
    JoinSplit(s, sep);
  }

  /** Splitting undoes joining pieces that do not contain the separator. */
  lemma {:induction false} SplitJoin(parts: seq<string>, sep: char)
    requires |parts| >= 1
    requires forall i :: 0 <= i < |parts| ==> sep !in parts[i]
    ensures Split(Join(parts, sep), sep) == parts
  {
    if |parts| == 1 {
      SplitNone(parts[0], sep);
    } else {
      var rest := Join(parts[1..], sep);
      assert Join(parts, sep) == parts[0] + [sep] + rest;
      SplitFirst(parts[0], sep, rest);
      SplitJoin(parts[1..], sep);
      assert parts == [parts[0]] + parts[1..];
    }
  }

  /** Splitting at a first separator peels off the piece before it. */
  lemma {:induction false} SplitFirst(x: string, sep: char, rest: string)
    requires sep !in x
    ensures Split(x + [sep] + rest, sep) == [x] + Split(rest, sep)
    decreases |x|
  {
    var s := x + [sep] + rest;
    if |x| == 0 {
      assert s[0] == sep && s[1..] == rest;
    } else {
      SplitFirst(x[1..], sep, rest);
      assert s[0] == x[0] && s[1..] == x[1..] + [sep] + rest;
      assert x == [x[0]] + x[1..];
    }
  }

  /** A separator-free word followed by nothing or by a separator is the first piece. */
  lemma FirstPiece(c: string, tail: string, sep: char)
    requires sep !in c
    requires tail == [] || tail[0] == sep
    ensures Split(c + tail, sep)[0] == c
  {
    if tail == [] {
      assert c + tail == c;
      SplitNone(c, sep);
    } else {
      assert c + tail == c + [sep] + tail[1..];
      SplitFirst(c, sep, tail[1..]);
    }
  }

  /** Three separator-free words, then nothing or a separator and anything:
      the first three pieces are the three words. */
  lemma SplitLeadingWords(a: string, b: string, c: string, tail: string, sep: char)
    requires sep !in a && sep !in b && sep !in c
    requires tail == [] || tail[0] == sep
    ensures var parts := Split(a + [sep] + (b + [sep] + (c + tail)), sep);
      |parts| >= 3 && parts[0] == a && parts[1] == b && parts[2] == c
  {
    var s3 := c + tail;
    var s2 := b + [sep] + s3;
    SplitFirst(a, sep, s2);
    SplitFirst(b, sep, s3);
    FirstPiece(c, tail, sep);
    var rest := Split(s3, sep);
    assert Split(a + [sep] + s2, sep) == [a] + ([b] + rest);
  }

  /** A character kept out of every piece, and different from `sep`, is kept out of the joined text. */
  lemma {:induction false} JoinExcludes(parts: seq<string>, sep: char, x: char)
    requires x != sep
    requires forall i :: 0 <= i < |parts| ==> x !in parts[i]
    ensures x !in Join(parts, sep)
  {
    if |parts| > 1 {
      JoinExcludes(parts[1..], sep, x);
      assert Join(parts, sep) == parts[0] + [sep] + Join(parts[1..], sep);
    }
  }

  /** The text after the first `sep`. */
  function After(s: string, sep: char): string
    requires sep in s
  {
    s[IndexOf(s, sep) + 1..]
  }

  /** Two pieces exactly when there is a separator and none after the
      first; the pieces are then what lies before and after it. */
  lemma SplitInTwo(s: string, sep: char)
    ensures |Split(s, sep)| == 2 <==> sep in s && sep !in After(s, sep)
    ensures |Split(s, sep)| == 2 ==> Split(s, sep) == [s[..IndexOf(s, sep)], After(s, sep)]
  {
    if sep in s {
      var i := IndexOf(s, sep);
      assert s == s[..i] + [sep] + s[i + 1..];
      SplitFirst(s[..i], sep, s[i + 1..]);
      CountZero(s[i + 1..], sep);
      if sep !in s[i + 1..] {
        SplitNone(s[i + 1..], sep);
      }
    } else {
      CountZero(s, sep);
    }
  }

  // ---------------------------------------------------------------------
  // Escaping: a reversible rewriting that keeps '.', ',', ' ' and '#' out.

  function EscapeChar(c: char): string
  {
    if c == '%' then "%25"
    else if c == '.' then "%2E"
    else if c == ' ' then "%20"
    else if c == ',' then "%2C"
    else if c == '#' then "%23"
    else [c]
  }

  function Escape(s: string): (r: string)
    ensures '.' !in r && ' ' !in r && ',' !in r && '#' !in r
  {
    if |s| == 0 then "" else EscapeChar(s[0]) + Escape(s[1..])
  }

  function UnescapeCode(a: char, b: char): Option<char>
  {
    if a == '2' && b == '5' then Some('%')
    else if a == '2' && b == 'E' then Some('.')
    else if a == '2' && b == '0' then Some(' ')
    else if a == '2' && b == 'C' then Some(',')
    else if a == '2' && b == '3' then Some('#')
    else None
  }

  function Unescape(s: string): string
  {
    if |s| == 0 then ""
    else if s[0] == '%' && |s| >= 3 && UnescapeCode(s[1], s[2]).Some? then
      [UnescapeCode(s[1], s[2]).value] + Unescape(s[3..])
    else [s[0]] + Unescape(s[1..])
  }

  /** Unescaping reads back one escaped character and leaves the rest. */
  lemma UnescapeStep(c: char, rest: string)
    ensures Unescape(EscapeChar(c) + rest) == [c] + Unescape(rest)
  {
    var t := EscapeChar(c) + rest;
    if c == '%' || c == '.' || c == ' ' || c == ',' || c == '#' {
      assert t[0] == '%' && t[3..] == rest;
      assert UnescapeCode(t[1], t[2]) == Some(c);
    } else {
      assert t[0] == c && t[1..] == rest;
    }
  }

  lemma {:induction false} UnescapeEscape(s: string)
    ensures Unescape(Escape(s)) == s
  {
    if |s| > 0 {
      UnescapeEscape(s[1..]);
      UnescapeStep(s[0], Escape(s[1..]));
      assert s == [s[0]] + s[1..];
    }
  }

  lemma EscapeInjective(a: string, b: string)
    requires Escape(a) == Escape(b)
    ensures a == b
  {
    UnescapeEscape(a);
    UnescapeEscape(b);
  }

  // ---------------------------------------------------------------------
  // Canonical decimal integers: no leading zeros and no "-0".

  predicate IsDigit(c: char)
  {
    '0' <= c <= '9'
  }

  predicate AllDigits(s: string)
  {
    forall i :: 0 <= i < |s| ==> IsDigit(s[i])
  }

  function DigitChar(d: nat): (c: char)
    requires d < 10
    ensures IsDigit(c) && c as int - '0' as int == d
  {
    ('0' as int + d) as char
  }

  function DigitValue(c: char): nat
    requires IsDigit(c)
  {
    c as int - '0' as int
  }

  /** Decimal text of `n`, most significant digit first. */
  function NatText(n: nat): (r: string)
    ensures |r| >= 1 && AllDigits(r)
    ensures r[0] == '0' ==> n == 0 && |r| == 1
  {
    if n < 10 then [DigitChar(n)] else NatText(n / 10) + [DigitChar(n % 10)]
  }

  /** Value of a non-empty digit string. */
  function NatValue(s: string): nat
    requires |s| >= 1 && AllDigits(s)
  {
    if |s| == 1 then DigitValue(s[0])
    else NatValue(s[..|s| - 1]) * 10 + DigitValue(s[|s| - 1])
  }

  lemma {:induction false} NatValueOfText(n: nat)
    ensures NatValue(NatText(n)) == n
  {
    if n >= 10 {
      var r := NatText(n);
      assert r[..|r| - 1] == NatText(n / 10);
      NatValueOfText(n / 10);
    }
  }

  lemma {:induction false} NatValuePositive(s: string)
    requires |s| >= 1 && AllDigits(s) && s[0] != '0'
    ensures NatValue(s) >= 1
  {
    if |s| > 1 {
      NatValuePositive(s[..|s| - 1]);
    }
  }

  lemma {:induction false} NatTextOfValue(s: string)
    requires |s| >= 1 && AllDigits(s)
    requires |s| > 1 ==> s[0] != '0'
    ensures NatText(NatValue(s)) == s
  {
    if |s| > 1 {
      var p := s[..|s| - 1];
      NatValuePositive(p);
      NatTextOfValue(p);
      var v := NatValue(s);
      assert v / 10 == NatValue(p) && v % 10 == DigitValue(s[|s| - 1]);
      assert s == p + [s[|s| - 1]];
    }
  }

  function IntText(n: int): (r: string)
    ensures |r| >= 1
    ensures forall i :: 0 <= i < |r| ==> IsDigit(r[i]) || r[i] == '-'
  {
    if n < 0 then "-" + NatText(-n) else NatText(n)
  }

  predicate CanonicalNat(s: string)
  {
    |s| >= 1 && AllDigits(s) && (|s| > 1 ==> s[0] != '0')
  }

  /** Reads an integer written the way `IntText` writes it; anything else is `None`. */
  function ParseInt(s: string): (r: Option<int>)
    ensures r.Some? ==> IntText(r.value) == s
  {
    if |s| >= 1 && s[0] == '-' then
      var m := s[1..];
      if CanonicalNat(m) && m[0] != '0' then
        NatTextOfValue(m);
        NatValuePositive(m);
        assert s == "-" + m;
        var v: int := -(NatValue(m) as int);
        Some(v)
      else None
    else if CanonicalNat(s) then
      NatTextOfValue(s);
      Some(NatValue(s))
    else None
  }

  lemma ParseIntText(n: int)
    ensures ParseInt(IntText(n)) == Some(n)
  {
    if n < 0 {
      var m := NatText(-n);
      NatValueOfText(-n);
      assert IntText(n)[1..] == m;
    } else {
      NatValueOfText(n);
    }
  }
}

=== FILE: users.dfy ===
/** The `users` table as the handlers reach it through
    server/internal/repository/postgres/user.go: rows with a SERIAL id and a
    UNIQUE email, looked up by email or by id, and appended on sign-up. */
module Users {
  import opened Text

  /** `entities.User`. */
  datatype User = User(
    id: int,
    password: string,
    email: string,
    name: string,
    surname: string,
    thirdName: string)

  /** The zero `entities.User{}` that `DBUserGetByEmail` returns, with no
      error, when no row has the email. */
  const NoUser := User(0, "", "", "", "", "")

  /** The rows in insertion order and the next value of the id sequence. */
  datatype Store = Store(users: seq<User>, nextId: int)

  /** What the table's constraints keep true: SERIAL ids start at 1 and grow
      with each insert, and no two rows share an email. */
  predicate Consistent(st: Store)
  {
    && st.nextId >= 1
    && (forall i :: 0 <= i < |st.users| ==> 1 <= st.users[i].id < st.nextId)
    && (forall i, j :: 0 <= i < j < |st.users| ==> st.users[i].id < st.users[j].id)
    && (forall i, j :: 0 <= i < j < |st.users| ==> st.users[i].email != st.users[j].email)
  }

  /** `DBUserExists`: some row has this email. */
  predicate EmailTaken(st: Store, email: string)
  {
    exists i :: 0 <= i < |st.users| && st.users[i].email == email
  }

  /** `DBUserExistsID`: some row has this id. */
  predicate IdTaken(st: Store, id: int)
  {
    exists i :: 0 <= i < |st.users| && st.users[i].id == id
  }

  /** First row with the email, scanning in insertion order. */
  function FindByEmail(users: seq<User>, email: string): (r: Option<User>)
    ensures r.Some? ==> r.value in users && r.value.email == email
    ensures r.None? <==> forall i :: 0 <= i < |users| ==> users[i].email != email
  {
    if |users| == 0 then None
    else if users[0].email == email then Some(users[0])
    else
      var r := FindByEmail(users[1..], email);
      assert forall i :: 1 <= i < |users| ==> users[i] == users[1..][i - 1];
      r
  }

  /** `DBUserGetByEmail`: the row with the email, or the zero user when
      there is none. */
  function UserGetByEmail(st: Store, email: string): (u: User)
    ensures EmailTaken(st, email) ==> u in st.users && u.email == email
    ensures !EmailTaken(st, email) ==> u == NoUser
  {
    match FindByEmail(st.users, email)
    case Some(u) => u
    case None => NoUser
  }

  /** In a consistent store an email names at most one row. */
  lemma EmailNamesOneRow(st: Store, u: User, v: User)
    requires Consistent(st)
    requires u in st.users && v in st.users && u.email == v.email
    ensures u == v
  {
    var i :| 0 <= i < |st.users| && st.users[i] == u;
    var j :| 0 <= j < |st.users| && st.users[j] == v;
  }

  /** `DBUserCreate`: appends the row with the next SERIAL id and reports
      that id; the id field of `u` is ignored. */
  function Insert(st: Store, u: User): (r: (Store, int))
    ensures r.0.users == st.users + [u.(id := r.1)]
    ensures Consistent(st) ==> !IdTaken(st, r.1) && r.1 >= 1
    ensures Consistent(st) && !EmailTaken(st, u.email) ==> Consistent(r.0)
  {
    (Store(st.users + [u.(id := st.nextId)], st.nextId + 1), st.nextId)
  }
}
